=== FILE: README.md ===
# Notification dispatch: a Dafny model

This project models the core of a notification service. An HTTP gateway
publishes each notification to a Kafka topic chosen by its type. Three
background services (email, SMS, push) each consume one topic, try to
deliver every message up to three times, count the outcome in Prometheus
counters and write at most one row per message (none when the final FAILED insert throws) to the `notification_logs` table.

The model covers:

- **the message contract** (`Common`): the `NotificationType` enum, including
  values cast from integers that name no member; its names; the
  `NotificationMessage` bag and its defaults;
- **topic routing and publishing** (`KafkaProducer`);
- **the log row and the repository insert** (`NotificationLog`);
- **the three consumer services** (`EmailConsumer`, `SmsConsumer`,
  `PushConsumer`). Each is a class whose fields are the service's counters,
  its attempts and delays, what its consume loop logged, and the rows its
  repository stored. `ProcessWithRetry` and `ExecuteAsync` are
  `while` loops, in the same form as the C# code;
- **the shared vocabulary** of those services (`Retry`): the attempt bound,
  the effect a message leaves behind (`Tally`), and the consume loop's
  handling of each delivery.

The outside world is reduced to oracles, one outcome per event:

- each attempt's SMTP session, HTTP response or exception;
- each insert (`Saved` or `SaveFailed(error)`);
- each consumed record (a `ConsumeException`, or a payload that
  deserializes to a message, to null, or throws);
- start-up (`startup: Option<string>`).

Every retry loop is proved against a pure function `Process` of the message
and its oracle. The lemmas beside each function state what the C# code
promises: attempt counts, counter deltas, delays, and the rows written.

Three behaviours of the code are worth noting; the model follows the code
in each:

- After the last failed attempt the code still waits its one-second delay.
  A message whose attempts all fail therefore takes three delays, not two.
- Only a payload that deserializes to null is logged as a warning. A
  payload whose deserialization throws is caught by the loop's general
  handler and logged as an error.
- The SUCCESS insert and the counter bump sit inside the retry `try`. An
  insert that throws is therefore a failed attempt: the notification is sent
  again and counted again.

## Model

| member | source | states |
|---|---|---|
| `Common.FromCode` | Common/Class1.cs:6-11 | casting an integer to the enum gives a value whose code is that integer; it is a named member exactly for 0..2; every value a C# variable can hold is `EnumValue`, with no second spelling of a named member |
| `Common.MembersInDeclarationOrder` | Common/Class1.cs:6-11 | the named members are Email, Sms, Push with codes 0, 1, 2; a value is named iff it is one of them; code -> value -> code round-trips |
| `Common.DefaultTypeIsEmail` | Common/Class1.cs:8-15 | an unset `Type` (the enum's default, code 0) is `Email`, the first member |
| `Common.NameRoundTrip` | Common/Class1.cs:5-11 | for named members, name -> type -> name round-trips on the wire, and every name that parses is a member's own name |
| `Common.TypeName` | PushService/NotificationLogRepository.cs:30 | `Enum.ToString()`: a named member prints a name that reads back as that member; any other value prints decimal text that reads back as its integer |
| `Common.ParseTypeName` | Common/Class1.cs:5 | the exact-name reading of the string converter: what it reads is a named member, and decimal text is never read as a name |
| `Common.DecimalRoundTrip` | PushService/NotificationLogRepository.cs:30 | the decimal text `ToString` gives for an unnamed value reads back as that value |
| `Common.TypeNameInjective` | PushService/NotificationLogRepository.cs:30 | two distinct enum values never get the same `type` string |
| `Common.NewMessage` | Common/Class1.cs:13-20 | a fresh message has type Email, null recipient, subject and text, and `CreatedAt` equal to the construction time |
| `NotificationLog.BuildRow` | PushService/NotificationLogRepository.cs:28-37 | the insert parameters: a `type` text from which the message's type can be read back, recipient, subject and text copied, status and error as passed, write time as `created_at` |
| `NotificationLog.RowIgnoresMessageTimestamp` | PushService/NotificationLogRepository.cs:36 | `created_at` is the write time; the message's own `CreatedAt` never reaches the row |
| `NotificationLog.RowDeterminesContent` | PushService/NotificationLogRepository.cs:28-37 | equal rows come only from messages with equal type, recipient, subject and text and from equal status, error and time: nothing is dropped or altered |
| `NotificationLog.NotificationLogRepository.SaveAsync` | PushService/NotificationLogRepository.cs:22-41 | one call appends exactly one row (type name, copied recipient/subject/message, status as passed, error or null when omitted, write time), or throws and leaves the table unchanged |
| `KafkaProducer.TopicFor` | NotificationGateway/Kafka/KafkaNotificationProducer.cs:31-37 | Email, Sms and Push map to their own topics and every other value to `notifications-unknown`, each as an if-and-only-if |
| `KafkaProducer.TopicForCode` | NotificationGateway/Kafka/KafkaNotificationProducer.cs:31-37 | by underlying integer: exactly the codes outside 0..2 reach the fallback topic |
| `KafkaProducer.NamedTopicsDistinct` | NotificationGateway/Kafka/KafkaNotificationProducer.cs:33-36 | the named members map to pairwise distinct topics, none of them the fallback |
| `KafkaProducer.NotificationProducer.SendAsync` | NotificationGateway/Kafka/KafkaNotificationProducer.cs:21-29 | publishes exactly one record carrying the message to the topic chosen by its type alone; a produce failure reaches the caller and publishes nothing |
| `Retry.FirstReturn` | EmailService/EmailConsumerService.cs:95-137 | the retry loop stops at the first attempt that reaches `return`; every earlier attempt threw |
| `Retry.ThrownBeforeReturn` | EmailService/EmailConsumerService.cs:95-137 | in any retry loop, of the attempts made exactly the ones before the first `return` threw, whether or not an attempt returned; the services' delay lemmas rest on it |
| `Retry.DeliveryEffect` | EmailService/EmailConsumerService.cs:60-81 | one consume-loop turn, the same in all three services: a Kafka error, a null payload or a deserializer exception costs no attempt, no counter and no row, and is logged exactly once, as a Kafka error iff it was a `ConsumeException` and as a warning iff the payload was null |
| `Retry.ParsedDeliveryEffect` | PushService/PushConsumerService.cs:52-71 | a deserialized message costs exactly what `ProcessWithRetry` costs, and the loop logs one more error iff an exception escaped it |
| `Retry.RunEffect` | SmsService/SmsConsumerService.cs:65-85 | over a stream: with no deserialized message there is no attempt, counter, delay or row, and the loop logs at least one warning, Kafka error or error per delivery that is not a message |
| `Retry.RunEffectBounds` | EmailService/EmailConsumerService.cs:60-82 | over any stream, at most one row and at most three attempts per deserialized message |
| `EmailConsumer.TopicMatchesRouting` | EmailService/EmailConsumerService.cs:21 | the email service subscribes to exactly the topic the gateway routes `Email` to |
| `EmailConsumer.Process` | EmailService/EmailConsumerService.cs:90-143 | one message's processing: one to three attempts, at most one row, at most one failure count, no more sent counts than attempts, a delay after every attempt but a successful one, the consume loop's warning, Kafka-error and error counts unchanged, and no row when the FAILED insert throws |
| `EmailConsumer.SucceedsOnAttempt` | EmailService/EmailConsumerService.cs:95-130 | the first attempt whose SMTP session and SUCCESS insert both complete ends the loop: j+1 attempts, j delays, one SUCCESS row with null error, no failure count; sent rises for it and for every earlier delivered email whose insert threw |
| `EmailConsumer.AllAttemptsFail` | EmailService/EmailConsumerService.cs:132-142 | when every attempt throws: three attempts, three delays, failure count +1, one FAILED row whose error is the last exception's (non-null) message |
| `EmailConsumer.DelaysEqualFailedAttempts` | EmailService/EmailConsumerService.cs:132-137 | delays taken equal the attempts that threw, the last one included |
| `EmailConsumer.ReliableStoreCountsOnce` | EmailService/EmailConsumerService.cs:121-142 | when inserts never fail, sent + failed rise by exactly one per message, and it is sent exactly when some SMTP session completed |
| `EmailConsumer.StoreFailureResends` | EmailService/EmailConsumerService.cs:123-136 | a throwing SUCCESS insert is a failed attempt: three delivered emails whose inserts fail give sent +3, failed +1 and one FAILED row with the database error |
| `EmailConsumer.EmailConsumerService.Attempt` | EmailService/EmailConsumerService.cs:97-130 | one attempt's `try` body: counts the attempt, bumps the sent counter iff the SMTP session completed, then inserts the SUCCESS row; returns what it throws |
| `EmailConsumer.EmailConsumerService.GiveUp` | EmailService/EmailConsumerService.cs:140-142 | after the loop: failed +1, then the FAILED insert with the last error, whose exception is returned |
| `EmailConsumer.EmailConsumerService.ProcessWithRetry` | EmailService/EmailConsumerService.cs:90-143 | the retry loop changes counters, delays and rows exactly as `Process` says, and lets the FAILED insert's exception escape |
| `EmailConsumer.EmailConsumerService.ConsumeOne` | EmailService/EmailConsumerService.cs:62-81 | one loop turn: Kafka errors, null payloads, deserializer exceptions and escaped exceptions are logged and absorbed; a message is processed |
| `EmailConsumer.EmailConsumerService.ExecuteAsync` | EmailService/EmailConsumerService.cs:44-88 | a start-up failure is caught once and nothing is processed; otherwise every delivery is handled in order and nothing ends the loop |
| `EmailConsumer.StreamBounds` | EmailService/EmailConsumerService.cs:60-143 | over any stream the email service writes at most one row and makes at most three attempts per deserialized message |
| `SmsConsumer.TopicMatchesRouting` | SmsService/SmsConsumerService.cs:19 | the SMS service subscribes to exactly the topic the gateway routes `Sms` to |
| `SmsConsumer.IsSuccessStatusCode` | SmsService/SmsConsumerService.cs:105 | success means a status code in the 2xx class |
| `SmsConsumer.StatusFor` | SmsService/SmsConsumerService.cs:105-106 | status is SUCCESS iff the status code is 2xx, FAILED otherwise |
| `SmsConsumer.Process` | SmsService/SmsConsumerService.cs:88-130 | one message's processing: one to three POSTs, at most one row, no more sent counts than attempts, a delay after every attempt but an answered one, so a delay after the last attempt only when three attempts were made, and then failed rises; the consume loop's warning, Kafka-error and error counts unchanged; no row when the FAILED insert throws |
| `SmsConsumer.AnsweredAttemptEnds` | SmsService/SmsConsumerService.cs:102-116 | any response whose row is stored ends processing, 2xx or not: j+1 attempts, j delays, one row with the status-derived status and the response body as error; sent rises for a 2xx answer and failed for any other, on top of earlier answered attempts whose insert threw |
| `SmsConsumer.OkResponseStoresBody` | SmsService/SmsConsumerService.cs:105-115 | HTTP 200 with body "OK" gives one SUCCESS row whose `error_message` is "OK" and sent +1 |
| `SmsConsumer.AllAttemptsThrow` | SmsService/SmsConsumerService.cs:119-129 | three exceptions: three delays, failed +1 exactly, sent unchanged, one FAILED row with the last exception's message |
| `SmsConsumer.AllAttemptsFail` | SmsService/SmsConsumerService.cs:93-129 | whenever all three attempts throw, whether the POST or the insert after a response threw: three attempts, three delays, sent +1 per 2xx answer, failed +1 per other answer and +1 after the loop, one FAILED row with the third attempt's (non-null) error, and the FAILED insert's exception escapes |
| `SmsConsumer.MixedFailuresExhaust` | SmsService/SmsConsumerService.cs:110-129 | a refused answer whose insert throws, a failed POST, then a 200 answer whose insert throws: three delays, sent +1, failed +2, one FAILED row with the last database error |
| `SmsConsumer.DelaysEqualFailedAttempts` | SmsService/SmsConsumerService.cs:119-124 | delays taken equal the attempts that threw, the last one included |
| `SmsConsumer.ReliableStoreCountsOnce` | SmsService/SmsConsumerService.cs:105-129 | when inserts never fail, exactly one counter moves by exactly one: sent iff the first response is 2xx, failed for any other first response or when all three attempts threw |
| `SmsConsumer.StoreFailureReposts` | SmsService/SmsConsumerService.cs:110-123 | the counter is bumped before the insert, so three 200 responses whose inserts fail give sent +3, failed +1 and one FAILED row with the database error |
| `SmsConsumer.RefusedStoreFailureCountsFourFailures` | SmsService/SmsConsumerService.cs:110-129 | three non-2xx responses whose inserts all throw give failed +4 (one per attempt and one after the loop), sent unchanged, three delays and one FAILED row with the database error |
| `SmsConsumer.RequestFor` | SmsService/SmsConsumerService.cs:134-147 | the request goes to the gateway URL with the fixed key, the recipient as phone and the text as message |
| `SmsConsumer.RequestDependsOnRecipientAndText` | SmsService/SmsConsumerService.cs:134-139 | two messages give the same request iff they have the same recipient and text: type, subject and timestamp never reach the gateway |
| `SmsConsumer.DeliveryPosts` | SmsService/SmsConsumerService.cs:67-76 | one consume-loop turn posts one request per attempt, all for the delivered message; a failed consume or unreadable payload posts nothing |
| `SmsConsumer.StreamPosts` | SmsService/SmsConsumerService.cs:65-85 | the requests posted over a stream number exactly the attempts the stream's messages took |
| `SmsConsumer.SmsConsumerService.SendSmsAsync` | SmsService/SmsConsumerService.cs:132-148 | posts exactly one request `{phone: Recipient, message: Message, key: "textbelt"}` to `https://textbelt.com/text` |
| `SmsConsumer.SmsConsumerService.Attempt` | SmsService/SmsConsumerService.cs:97-117 | one attempt's `try` body: one POST; on a response, the counter its status selects and an insert with the body as error; returns what it throws |
| `SmsConsumer.SmsConsumerService.GiveUp` | SmsService/SmsConsumerService.cs:127-129 | after the loop: failed +1, then the FAILED insert with the last error, whose exception is returned; no POST |
| `SmsConsumer.SmsConsumerService.ProcessWithRetry` | SmsService/SmsConsumerService.cs:88-130 | the retry loop changes counters, delays and rows exactly as `Process` says, and appends the same request once per attempt to the POSTs made, keeping the earlier ones |
| `SmsConsumer.SmsConsumerService.ConsumeOne` | SmsService/SmsConsumerService.cs:67-84 | one loop turn, with every exception logged and absorbed; the POSTs made grow by exactly that turn's `DeliveryPosts` |
| `SmsConsumer.SmsConsumerService.ExecuteAsync` | SmsService/SmsConsumerService.cs:51-86 | a start-up failure escapes before any processing or POST; otherwise every delivery is handled in order and the POSTs made grow by exactly `StreamPosts` |
| `SmsConsumer.StreamBounds` | SmsService/SmsConsumerService.cs:65-130 | over any stream, at most one row and at most three attempts and three POSTs per deserialized message |
| `PushConsumer.TopicMatchesRouting` | PushService/PushConsumerService.cs:23 | the push service subscribes to exactly the topic the gateway routes `Push` to |
| `PushConsumer.Process` | PushService/PushConsumerService.cs:75-104 | one message's processing: one to three attempts, at most one row, the sent counter up once per attempt, at most one failure count, a delay after every attempt but a successful one, the consume loop's warning, Kafka-error and error counts unchanged, and no row when the FAILED insert throws |
| `PushConsumer.FirstInsertSucceeds` | PushService/PushConsumerService.cs:84-91 | when the first insert succeeds: one attempt, no delay, sent +1, one SUCCESS row with null error, nothing else |
| `PushConsumer.SucceedsOnAttempt` | PushService/PushConsumerService.cs:80-98 | the first successful insert ends the loop after j+1 attempts and j delays, with sent +(j+1) |
| `PushConsumer.AllInsertsFail` | PushService/PushConsumerService.cs:93-103 | three throwing inserts: three delays, sent +3, failed +1, one FAILED row with the third exception's message |
| `PushConsumer.PushConsumerService.Attempt` | PushService/PushConsumerService.cs:82-92 | one attempt's `try` body: counts the attempt, bumps the sent counter, inserts the SUCCESS row; returns what it throws |
| `PushConsumer.PushConsumerService.GiveUp` | PushService/PushConsumerService.cs:101-103 | after the loop: failed +1, then the FAILED insert with the last error, whose exception is returned |
| `PushConsumer.PushConsumerService.ProcessWithRetry` | PushService/PushConsumerService.cs:75-104 | the retry loop changes counters, delays and rows exactly as `Process` says |
| `PushConsumer.PushConsumerService.ConsumeOne` | PushService/PushConsumerService.cs:52-71 | one loop turn, with every exception logged and absorbed |
| `PushConsumer.PushConsumerService.ExecuteAsync` | PushService/PushConsumerService.cs:36-73 | a start-up failure escapes before any processing; otherwise every delivery is handled in order |
| `PushConsumer.StreamBounds` | PushService/PushConsumerService.cs:50-104 | over any stream, at most one row and at most three attempts per deserialized message |

## Left out

- JSON: serialization and deserialization are not modelled. A consumed record is an oracle: a message, null, or an exception. A published `Record` carries the message itself in place of its JSON text. No serialize/deserialize round-trip is proved.
- `Common.ParseTypeName` accepts the exact member names only. The JSON converter's case-insensitive and integer readings are not modelled.
- Kafka internals: bootstrap configuration, consumer groups, partition assignment, offset commits and redelivery after a crash.
- A produce failure publishes nothing in the model. A record that reached the broker before a timeout is not represented.
- SMTP and HTTP internals: configuration reads, MIME building, connect, authenticate, send and disconnect are one SMTP outcome per attempt. POST and reading the body are one HTTP outcome per attempt. The SMTP messages themselves are not recorded. The SMS requests are recorded (`posts`).
- Time: `Task.Delay(1000)` is a count of delays (`delays`), not elapsed time. `DateTime.UtcNow` is the `now` of each delivery, so every row written for one message carries the same time.
- Prometheus: the send-duration histograms are left out, as wall-clock measurements. The counters are fields of each service object, not process-wide statics.
- Cancellation: the delivery sequence ends where the loop head sees cancellation. A `Consume` interrupted by cancellation is not represented. It is caught, logged as an error, and the loop then exits.
- Hosting: after a start-up exception escapes the SMS or push service, what the host does is not modelled.
- The email and SMS services use their own `NotificationLogRepository` classes, which are not part of this model. All three services use the push service's repository, whose insert either appends one row or throws.
- The gateway controller is not part of this model: ASP.NET binding and a null check before `SendAsync`. The `Program.cs` host and dependency-injection wiring are not part of this model either.
- Log message texts are not modelled. Only the number of warnings, Kafka errors and other errors each consume loop logs is kept. The retry loops' own log lines (the warning after each failed attempt and the error after the last) are not counted.
- `Common.EnumValue` admits any integer code for an unnamed value. The 32-bit range of the enum's underlying `int` is not enforced, so codes a C# variable cannot hold are also modelled.

=== FILE: common.dfy ===
/**
 * The shared message contract: the `NotificationType` enum and the
 * `NotificationMessage` property bag carried on every topic.
 */
module Common {
  import opened Wrappers

  /**
   * The enum's values. `Email`, `Sms` and `Push` are the named members,
   * numbered 0, 1 and 2 in declaration order. A C# enum variable can also
   * hold any other integer (a cast such as `(NotificationType)7`); such a
   * value is `Other(code)`.
   */
  datatype NotificationType = Email | Sms | Push | Other(code: int)

  /** The named members in declaration order. */
  const Members: seq<NotificationType> := [Email, Sms, Push]

  /** An `Other` value never carries the code of a named member. */
  predicate WellFormed(t: NotificationType)
  {
    t.Other? ==> t.code < 0 || t.code >= |Members|
  }

  /** The values a C# `NotificationType` variable can hold, each exactly once. */
  type EnumValue = t: NotificationType | WellFormed(t) witness Email

  predicate IsNamed(t: NotificationType)
  {
    !t.Other?
  }

  /** The underlying integer of an enum value. */
  function Code(t: NotificationType): int
  {
    match t
    case Email => 0
    case Sms => 1
    case Push => 2
    case Other(c) => c
  }

  /** The cast from an integer to the enum. */
  function FromCode(c: int): (t: EnumValue)
    ensures Code(t) == c
    ensures IsNamed(t) <==> 0 <= c < |Members|
  {
    if c == 0 then Email else if c == 1 then Sms else if c == 2 then Push else Other(c)
  }

  /** Members are Email, Sms, Push in that order, and they are exactly the named values. */
  lemma MembersInDeclarationOrder(t: EnumValue)
    ensures forall i :: 0 <= i < |Members| ==> Code(Members[i]) == i
    ensures IsNamed(t) <==> t in Members
    ensures FromCode(Code(t)) == t
  {
  }

  /** The value an unset `Type` property holds: `default(NotificationType)`, code 0. */
  const DefaultType: EnumValue := FromCode(0)

  lemma DefaultTypeIsEmail()
    ensures DefaultType == Email && DefaultType == Members[0]
  {
  }

  // ---------------------------------------------------------------------------
  // Names: `Enum.ToString()` and the string form used on the wire
  // ---------------------------------------------------------------------------

  predicate IsDigit(ch: char)
  {
    '0' <= ch <= '9'
  }

  predicate AllDigits(s: string)
  {
    forall i :: 0 <= i < |s| ==> IsDigit(s[i])
  }

  function DigitChar(d: nat): (ch: char)
    requires d < 10
    ensures IsDigit(ch) && ch as int - '0' as int == d
  {
    ('0' as int + d) as char
  }

  /** Decimal digits of a natural number, most significant first, no leading zeros. */
  function NatDigits(n: nat): (s: string)
    ensures |s| >= 1 && AllDigits(s)
    decreases n
  {
    if n < 10 then [DigitChar(n)] else NatDigits(n / 10) + [DigitChar(n % 10)]
  }

  /** The number a string of decimal digits denotes. */
  function DigitsValue(s: string): nat
    requires AllDigits(s)
  {
    if s == [] then 0 else DigitsValue(s[..|s| - 1]) * 10 + (s[|s| - 1] as int - '0' as int)
  }

  lemma {:induction false} NatDigitsRoundTrip(n: nat)
    ensures DigitsValue(NatDigits(n)) == n
    decreases n
  {
    if n >= 10 {
      var s := NatDigits(n);
      assert s[..|s| - 1] == NatDigits(n / 10);
      NatDigitsRoundTrip(n / 10);
    }
  }

  /** How .NET prints an integer: an optional minus sign, then decimal digits. */
  function DecimalString(c: int): (s: string)
    ensures |s| >= 1 && (s[0] == '-' || IsDigit(s[0]))
  {
    if c < 0 then "-" + NatDigits(-c) else NatDigits(c)
  }

  /** Reading back what `DecimalString` prints. */
  function DecimalValue(s: string): Option<int>
  {
    if |s| >= 1 && s[0] == '-' && AllDigits(s[1..]) then Some(0 - DigitsValue(s[1..]) as int)
    else if AllDigits(s) then Some(DigitsValue(s))
    else None
  }

  lemma DecimalRoundTrip(c: int)
    ensures DecimalValue(DecimalString(c)) == Some(c)
  {
    var s := DecimalString(c);
    if c < 0 {
      assert s[0] == '-' && s[1..] == NatDigits(-c);
      NatDigitsRoundTrip(-c);
      assert DecimalValue(s) == Some(0 - DigitsValue(s[1..]) as int);
    } else {
      assert s == NatDigits(c) && s[0] != '-';
      NatDigitsRoundTrip(c);
      assert DecimalValue(s) == Some(DigitsValue(s));
    }
  }

  /**
   * `Enum.ToString()`: the member name for a named value, the decimal
   * integer for any other value. The JSON string converter writes the same
   * name for a named member.
   */
  function TypeName(t: NotificationType): (s: string)
    ensures IsNamed(t) ==> ParseTypeName(s) == Some(t)
    ensures t.Other? ==> DecimalValue(s) == Some(t.code)
  {
    match t
    case Email => "Email"
    case Sms => "Sms"
    case Push => "Push"
    case Other(c) => DecimalRoundTrip(c); DecimalString(c)
  }

  /**
   * Reading a member name from the wire: only a member's exact name is
   * accepted, and nothing that looks like a printed integer.
   */
  function ParseTypeName(s: string): (r: Option<NotificationType>)
    ensures r.Some? ==> IsNamed(r.value) && r.value in Members
    ensures |s| >= 1 && (s[0] == '-' || IsDigit(s[0])) ==> r.None?
  {
    if s == "Email" then Some(Email)
    else if s == "Sms" then Some(Sms)
    else if s == "Push" then Some(Push)
    else None
  }

  /** name -> type -> name and type -> name -> type agree for the named members. */
  lemma NameRoundTrip(t: NotificationType, s: string)
    ensures IsNamed(t) ==> ParseTypeName(TypeName(t)) == Some(t)
    ensures ParseTypeName(s).Some? ==> IsNamed(ParseTypeName(s).value) && TypeName(ParseTypeName(s).value) == s
  {
  }

  /** Different enum values print differently, so the name identifies the value. */
  lemma TypeNameInjective(t1: EnumValue, t2: EnumValue)
    requires TypeName(t1) == TypeName(t2)
    ensures t1 == t2
  {
    // A printed code starts with '-' or a digit, a member name with a letter,
    // so only two Other values can share a name.
    if t1.Other? && t2.Other? {
      DecimalRoundTrip(t1.code);
      DecimalRoundTrip(t2.code);
    }
  }

  // ---------------------------------------------------------------------------
  // The message
  // ---------------------------------------------------------------------------

  /**
   * A notification. The string properties have no default, so each may be
   * null (`None`); `createdAt` is a UTC instant (ticks).
   */
  datatype NotificationMessage = NotificationMessage(
    kind: EnumValue,
    recipient: Option<string>,
    subject: Option<string>,
    message: Option<string>,
    createdAt: int)

  /**
   * `new NotificationMessage()` at UTC time `now`: what deserialization starts
   * from before it fills in the properties present in the payload.
   */
  function NewMessage(now: int): (m: NotificationMessage)
    ensures m.kind == DefaultType && m.kind == Email
    ensures m.recipient == None && m.subject == None && m.message == None
    ensures m.createdAt == now
  {
    NotificationMessage(DefaultType, None, None, None, now)
  }
}

=== FILE: email_consumer.dfy ===
/**
 * The email service: a consume loop on `notifications-email` and a retry
 * loop around one SMTP session per attempt.
 */
module EmailConsumer {
  import opened Wrappers
  import opened Common
  import opened NotificationLog
  import opened Retry
  import KafkaProducer

  const Topic: string := "notifications-email"

  /** The service subscribes to the topic the gateway routes email to. */
  lemma TopicMatchesRouting()
    ensures Topic == KafkaProducer.TopicFor(Email)
    ensures forall t :: KafkaProducer.TopicFor(t) == Topic <==> t == Email
  {
  }

  /**
   * How the SMTP part of one attempt goes: the configuration reads (a bad
   * `Port` makes `int.Parse` throw), building the MIME message, connect,
   * authenticate, send and disconnect all complete, or one of them throws.
   */
  datatype SmtpResult = Delivered | SmtpFailed(error: string)

  /** One attempt: the SMTP outcome, and how the SUCCESS insert would go if it is reached. */
  datatype EmailAttempt = EmailAttempt(smtp: SmtpResult, successSave: SaveResult)

  /** An oracle with one entry per possible attempt. */
  type EmailScript = s: seq<EmailAttempt> | |s| == MaxRetryAttempts
    witness [EmailAttempt(Delivered, Saved), EmailAttempt(Delivered, Saved), EmailAttempt(Delivered, Saved)]

  /** The exception an attempt throws inside the `try`, or `None` when it reaches `return`. */
  function AttemptError(a: EmailAttempt): Option<string>
  {
    match a.smtp
    case SmtpFailed(e) => Some(e)
    case Delivered => Thrown(a.successSave)
  }

  /** An attempt whose SMTP session completed bumps `email_sent_total`. */
  predicate SmtpDelivered(a: EmailAttempt)
  {
    a.smtp.Delivered?
  }

  function Errors(script: EmailScript): (errs: seq<Option<string>>)
    ensures |errs| == MaxRetryAttempts
    ensures forall i :: 0 <= i < |errs| ==> errs[i] == AttemptError(script[i])
  {
    seq(|script|, i requires 0 <= i < |script| => AttemptError(script[i]))
  }

  /**
   * The effect of `ProcessWithRetry(message)`: attempts run until one
   * completes both the SMTP session and the SUCCESS insert; every attempt
   * that throws is followed by a delay. If all three throw, the failed
   * counter is bumped and a FAILED row carrying the last exception's
   * message is inserted; an exception from that insert escapes.
   */
  function Process(m: NotificationMessage, script: EmailScript, finalSave: SaveResult, now: int): (r: Processed)
    ensures 1 <= r.delta.attempts <= MaxRetryAttempts && |r.delta.rows| <= 1
    ensures r.delta.failed <= 1 && r.delta.sent <= r.delta.attempts
    ensures r.delta.delays == r.delta.attempts - 1 + r.delta.failed
    ensures r.delta.warnings == 0 && r.delta.kafkaErrors == 0 && r.delta.errors == 0
    ensures r.escaped.Some? ==> r.delta.failed == 1 && r.delta.rows == []
  {
    var errs := Errors(script);
    var n := FirstReturn(errs);
    var k := AttemptsMade(errs);
    var sent := Count(script[..k], SmtpDelivered);
    if n < MaxRetryAttempts then
      Processed(Tally(sent, 0, k, n, 0, 0, 0, [BuildRow(m, StatusSuccess, None, now)]), None)
    else
      Processed(Tally(sent, 1, k, k, 0, 0, 0, SavedRows(BuildRow(m, StatusFailed, errs[k - 1], now), finalSave)),
                Thrown(finalSave))
  }

  /** What the loop has added after `i` attempts that all threw. */
  function Failing(script: EmailScript, i: nat): Tally
    requires i <= |script|
  {
    Tally(Count(script[..i], SmtpDelivered), 0, i, i, 0, 0, 0, [])
  }

  /** What the body of one attempt's `try` adds: the attempt, the sent count, the SUCCESS row. */
  function TryTally(m: NotificationMessage, a: EmailAttempt, now: int): Tally
  {
    Zero.(sent := if SmtpDelivered(a) then 1 else 0,
          attempts := 1,
          rows := if SmtpDelivered(a) then SavedRows(BuildRow(m, StatusSuccess, None, now), a.successSave) else [])
  }

  lemma ThrownAttemptStep(start: Tally, cur: Tally, m: NotificationMessage, script: EmailScript, i: nat, now: int)
    requires i < |script| && AttemptError(script[i]).Some? && i <= FirstReturn(Errors(script))
    requires cur == Add(start, Failing(script, i))
    ensures Add(Add(cur, TryTally(m, script[i], now)), Zero.(delays := 1)) == Add(start, Failing(script, i + 1))
    ensures i + 1 <= FirstReturn(Errors(script)) && Errors(script)[i] == AttemptError(script[i])
  {
    CountPrefix(script, i, SmtpDelivered);
  }

  lemma ReturnedAttemptStep(start: Tally, cur: Tally, m: NotificationMessage, script: EmailScript,
                            finalSave: SaveResult, now: int, j: nat)
    requires j < |script| && FirstReturn(Errors(script)) == j
    requires cur == Add(start, Failing(script, j))
    ensures Add(cur, TryTally(m, script[j], now)) == Add(start, Process(m, script, finalSave, now).delta)
    ensures Process(m, script, finalSave, now).escaped == None
  {
    CountPrefix(script, j, SmtpDelivered);
    assert Errors(script)[j].None?;
  }

  lemma ExhaustedStep(start: Tally, cur: Tally, m: NotificationMessage, script: EmailScript,
                      finalSave: SaveResult, now: int)
    requires FirstReturn(Errors(script)) == MaxRetryAttempts
    requires cur == Add(start, Failing(script, MaxRetryAttempts))
    ensures Add(Add(cur, Zero.(failed := 1)),
                Zero.(rows := SavedRows(BuildRow(m, StatusFailed, Errors(script)[MaxRetryAttempts - 1], now), finalSave)))
         == Add(start, Process(m, script, finalSave, now).delta)
    ensures Process(m, script, finalSave, now).escaped == Thrown(finalSave)
  {
    assert script[..MaxRetryAttempts] == script;
  }

  // ---------------------------------------------------------------------------
  // Properties of one message's processing
  // ---------------------------------------------------------------------------

  /**
   * The first attempt whose SMTP session and SUCCESS insert both complete
   * ends the loop: `j + 1` attempts, `j` delays, no failure count, one
   * SUCCESS row with a null error, and nothing escapes. The sent counter
   * rises for this attempt and for every earlier one whose SMTP session
   * completed before its insert threw.
   */
  lemma SucceedsOnAttempt(m: NotificationMessage, script: EmailScript, finalSave: SaveResult, now: int, j: nat)
    requires j < MaxRetryAttempts
    requires forall i :: 0 <= i < j ==> AttemptError(script[i]).Some?
    requires AttemptError(script[j]).None?
    ensures var r := Process(m, script, finalSave, now);
      && r.delta.attempts == j + 1
      && r.delta.delays == j
      && r.delta.failed == 0
      && r.delta.sent == Count(script[..j], SmtpDelivered) + 1
      && r.delta.rows == [BuildRow(m, StatusSuccess, None, now)]
      && r.escaped == None
  {
    var errs := Errors(script);
    assert errs[j].None?;
    CountPrefix(script, j, SmtpDelivered);
  }

  /**
   * When every attempt throws: three attempts, three delays (one after the
   * last attempt too), the failed counter up by one, and one FAILED row (if
   * its insert succeeds) whose error is the third exception's message.
   */
  lemma AllAttemptsFail(m: NotificationMessage, script: EmailScript, finalSave: SaveResult, now: int)
    requires forall i :: 0 <= i < |script| ==> AttemptError(script[i]).Some?
    ensures var r := Process(m, script, finalSave, now);
      && r.delta.attempts == MaxRetryAttempts
      && r.delta.delays == MaxRetryAttempts
      && r.delta.failed == 1
      && r.delta.sent == Count(script, SmtpDelivered)
      && AttemptError(script[2]).Some?
      && r.delta.rows == SavedRows(BuildRow(m, StatusFailed, AttemptError(script[2]), now), finalSave)
      && r.escaped == Thrown(finalSave)
  {
    assert script[..MaxRetryAttempts] == script;
  }

  /** A delay follows every attempt that throws, and no other: delays == failed attempts. */
  lemma {:induction false} DelaysEqualFailedAttempts(m: NotificationMessage, script: EmailScript, finalSave: SaveResult, now: int)
    ensures var d := Process(m, script, finalSave, now).delta;
      d.delays == Count(Errors(script)[..d.attempts], Threw)
  {
    ThrownBeforeReturn(Errors(script));
  }

  /**
   * With a store that never fails, the sent counter moves exactly when the
   * message is delivered: up by one on success, unchanged when all three
   * SMTP sessions fail.
   */
  lemma {:induction false} ReliableStoreCountsOnce(m: NotificationMessage, script: EmailScript, finalSave: SaveResult, now: int)
    requires forall i :: 0 <= i < |script| ==> script[i].successSave.Saved?
    ensures var d := Process(m, script, finalSave, now).delta;
      d.sent + d.failed == 1
    ensures var d := Process(m, script, finalSave, now).delta;
      d.sent == 1 <==> exists i :: 0 <= i < |script| && SmtpDelivered(script[i])
  {
    var errs := Errors(script);
    var n := FirstReturn(errs);
    forall i | 0 <= i < n
      ensures !SmtpDelivered(script[i])
    {
      assert errs[i].Some?;
    }
    if n < MaxRetryAttempts {
      assert errs[n].None? && SmtpDelivered(script[n]);
      CountNone(script[..n], SmtpDelivered);
      CountPrefix(script, n, SmtpDelivered);
    } else {
      assert script[..MaxRetryAttempts] == script;
      CountNone(script, SmtpDelivered);
    }
  }

  /**
   * A SUCCESS insert that throws counts as a failed attempt: the email is
   * sent again and the sent counter rises each time. Three delivered emails
   * whose inserts all fail give three sent counts, one failure count, and
   * one FAILED row holding the database error.
   */
  lemma StoreFailureResends(m: NotificationMessage, dbError: string, now: int)
    ensures var a := EmailAttempt(Delivered, SaveFailed(dbError));
      var r := Process(m, [a, a, a], Saved, now);
      && r.delta.attempts == 3 && r.delta.sent == 3 && r.delta.failed == 1 && r.delta.delays == 3
      && r.delta.rows == [BuildRow(m, StatusFailed, Some(dbError), now)]
  {
    var a := EmailAttempt(Delivered, SaveFailed(dbError));
    var script: EmailScript := [a, a, a];
    AllAttemptsFail(m, script, Saved, now);
    CountAll(script, SmtpDelivered);
  }

  // ---------------------------------------------------------------------------
  // The service
  // ---------------------------------------------------------------------------

  /**
   * `EmailConsumerService` with its process-wide counters
   * (`email_sent_total`, `email_failed_total`) and the bookkeeping of its
   * loops: attempts made, one-second delays taken, and what was logged.
   */
  class EmailConsumerService {
    var sentTotal: nat
    var failedTotal: nat
    var attempts: nat
    var delays: nat
    var warnings: nat
    var kafkaErrors: nat
    var errors: nat
    const repository: NotificationLogRepository

    function Observe(): Tally
      reads this, repository
    {
      Tally(sentTotal, failedTotal, attempts, delays, warnings, kafkaErrors, errors, repository.rows)
    }

    constructor (repository: NotificationLogRepository)
      ensures this.repository == repository
      ensures Observe() == Zero.(rows := repository.rows)
    {
      this.repository := repository;
      sentTotal, failedTotal, attempts, delays := 0, 0, 0, 0;
      warnings, kafkaErrors, errors := 0, 0, 0;
    }

    /**
     * The body of one attempt's `try`: `attempt++`, the SMTP session, the
     * sent counter, the SUCCESS insert. Returns what it throws.
     */
    method Attempt(message: NotificationMessage, a: EmailAttempt, now: int) returns (error: Option<string>)
      modifies this, repository
      ensures error == AttemptError(a)
      ensures Observe() == Add(old(Observe()), TryTally(message, a, now))
    {
      attempts := attempts + 1;
      match a.smtp {
        case SmtpFailed(e) =>
          error := Some(e);
        case Delivered =>
          sentTotal := sentTotal + 1;
          error := repository.SaveAsync(message, StatusSuccess, now, a.successSave);
      }
    }

    /** After the last attempt: the failed counter, then the FAILED insert carrying the last error. */
    method GiveUp(message: NotificationMessage, lastError: Option<string>, finalSave: SaveResult, now: int)
      returns (thrown: Option<string>)
      modifies this, repository
      ensures Observe() == Add(old(Observe()), Zero.(failed := 1, rows := SavedRows(BuildRow(message, StatusFailed, lastError, now), finalSave)))
      ensures thrown == Thrown(finalSave)
    {
      failedTotal := failedTotal + 1;
      thrown := repository.SaveAsync(message, StatusFailed, now, finalSave, lastError);
    }

    method ProcessWithRetry(message: NotificationMessage, script: EmailScript, finalSave: SaveResult, now: int)
      returns (thrown: Option<string>)
      modifies this, repository
      ensures Observe() == Add(old(Observe()), Process(message, script, finalSave, now).delta)
      ensures thrown == Process(message, script, finalSave, now).escaped
    {
      ghost var start := Observe();
      ghost var errs := Errors(script);
      var attempt := 0;
      var lastError: Option<string> := None;
      while attempt < MaxRetryAttempts
        invariant 0 <= attempt <= MaxRetryAttempts && attempt <= FirstReturn(errs)
        invariant attempt > 0 ==> lastError == errs[attempt - 1]
        invariant Observe() == Add(start, Failing(script, attempt))
      {
        ghost var cur := Observe();
        attempt := attempt + 1;
        var error := Attempt(message, script[attempt - 1], now);
        if error.None? {
          ReturnedAttemptStep(start, cur, message, script, finalSave, now, attempt - 1);
          return None;
        }
        // the `catch`: remember the exception, wait one second
        lastError := error;
        delays := delays + 1;
        ThrownAttemptStep(start, cur, message, script, attempt - 1, now);
      }
      ghost var cur := Observe();
      thrown := GiveUp(message, lastError, finalSave, now);
      ExhaustedStep(start, cur, message, script, finalSave, now);
    }

    /**
     * One turn of the consume loop, inside its `try`: a `ConsumeException`
     * and any other exception are caught and logged, a null message is
     * logged as a warning, and a message is handed to `ProcessWithRetry`.
     */
    method ConsumeOne(d: Delivery<EmailScript>)
      modifies this, repository
      ensures Observe() == Add(old(Observe()), DeliveryEffect(d, Process))
    {
      match d {
        case ConsumeFailed(_) =>
          kafkaErrors := kafkaErrors + 1;
        case Received(payload, script, finalSave, now) =>
          match payload {
            case NullPayload =>
              warnings := warnings + 1;
            case Malformed(_) =>
              errors := errors + 1;
            case Parsed(m) =>
              var thrown := ProcessWithRetry(m, script, finalSave, now);
              if thrown.Some? {
                errors := errors + 1;
              }
          }
      }
    }

    /**
     * `ExecuteAsync`: a failure while building or subscribing the consumer
     * is caught once, logged at critical severity, and nothing is processed.
     * Otherwise every delivery is handled in order and no exception ends the
     * loop; the stream ends where the loop head sees the cancellation.
     */
    method ExecuteAsync(startup: Option<string>, deliveries: seq<Delivery<EmailScript>>)
      returns (critical: Option<string>)
      modifies this, repository
      ensures critical == startup
      ensures startup.Some? ==> Observe() == old(Observe())
      ensures startup.None? ==> Observe() == Add(old(Observe()), RunEffect(deliveries, Process))
    {
      if startup.Some? {
        return startup;
      }
      var i := 0;
      while i < |deliveries|
        invariant 0 <= i <= |deliveries|
        invariant Observe() == Add(old(Observe()), RunEffect(deliveries[..i], Process))
      {
        ghost var before := Observe();
        ConsumeOne(deliveries[i]);
        RunEffectStep(old(Observe()), before, deliveries, i, Process);
        i := i + 1;
      }
      assert deliveries[..i] == deliveries;
      critical := None;
    }
  }

  /** Over any stream: at most one row and at most three attempts per deserialized message. */
  lemma StreamBounds(deliveries: seq<Delivery<EmailScript>>)
    ensures |RunEffect(deliveries, Process).rows| <= ParsedCount(deliveries)
    ensures RunEffect(deliveries, Process).attempts <= MaxRetryAttempts * ParsedCount(deliveries)
  {
    RunEffectBounds(deliveries, Process);
  }
}

=== FILE: kafka_producer.dfy ===
/** The gateway's publish step: choose the topic from the type, publish once. */
module KafkaProducer {
  import opened Wrappers
  import opened Common

  const EmailTopic: string := "notifications-email"
  const SmsTopic: string := "notifications-sms"
  const PushTopic: string := "notifications-push"
  /** The sink topic for values that name no member; nothing consumes it. */
  const UnknownTopic: string := "notifications-unknown"

  /** The routing switch: total over every enum value, including unnamed ones. */
  function TopicFor(t: NotificationType): (topic: string)
    ensures t == Email <==> topic == EmailTopic
    ensures t == Sms <==> topic == SmsTopic
    ensures t == Push <==> topic == PushTopic
    ensures t.Other? <==> topic == UnknownTopic
  {
    match t
    case Email => EmailTopic
    case Sms => SmsTopic
    case Push => PushTopic
    case _ => UnknownTopic
  }

  /** Routing by the underlying integer: exactly the codes outside 0..2 reach the sink topic. */
  lemma TopicForCode(c: int)
    ensures TopicFor(FromCode(c)) == UnknownTopic <==> c < 0 || c > 2
    ensures 0 <= c <= 2 ==> TopicFor(FromCode(c)) == [EmailTopic, SmsTopic, PushTopic][c]
  {
  }

  /** The named members reach pairwise distinct topics. */
  lemma NamedTopicsDistinct(t1: NotificationType, t2: NotificationType)
    requires IsNamed(t1) && IsNamed(t2) && t1 != t2
    ensures TopicFor(t1) != TopicFor(t2)
    ensures TopicFor(t1) != UnknownTopic
  {
  }

  /** One produced Kafka record; `value` stands for the JSON text of the message. */
  datatype Record = Record(topic: string, value: NotificationMessage)

  class NotificationProducer {
    /** The records the bus has accepted from this producer, in order. */
    var published: seq<Record>

    constructor ()
      ensures published == []
    {
      published := [];
    }

    /**
     * Publishes `message` once, to the topic its type selects. `fault` is
     * the bus's answer: a produce failure is not caught and reaches the caller.
     */
    method SendAsync(message: NotificationMessage, fault: Option<string>) returns (thrown: Option<string>)
      modifies this
      ensures thrown == fault
      ensures fault.None? ==> published == old(published) + [Record(TopicFor(message.kind), message)]
      ensures fault.Some? ==> published == old(published)
    {
      var topic := TopicFor(message.kind);
      if fault.Some? {
        thrown := fault;
        return;
      }
      published := published + [Record(topic, message)];
      thrown := None;
    }
  }
}

=== FILE: notification_log.dfy ===
/**
 * The delivery-status log: one row of `notification_logs` per terminal
 * outcome, built from the message, the status, an optional error text and
 * the time of the write.
 */
module NotificationLog {
  import opened Wrappers
  import opened Common

  const StatusSuccess: string := "SUCCESS"
  const StatusFailed: string := "FAILED"

  /** The columns of `notification_logs`, in insert order. */
  datatype LogRow = LogRow(
    kind: string,
    recipient: Option<string>,
    subject: Option<string>,
    message: Option<string>,
    status: string,
    errorMessage: Option<string>,
    createdAt: int)

  /** The insert parameters for `message` written with `status` and `error` at time `now`. */
  function BuildRow(m: NotificationMessage, status: string, error: Option<string>, now: int): (r: LogRow)
    ensures IsNamed(m.kind) ==> ParseTypeName(r.kind) == Some(m.kind)
    ensures m.kind.Other? ==> DecimalValue(r.kind) == Some(m.kind.code)
    ensures r.recipient == m.recipient && r.subject == m.subject && r.message == m.message
    ensures r.status == status && r.errorMessage == error && r.createdAt == now
  {
    LogRow(TypeName(m.kind), m.recipient, m.subject, m.message, status, error, now)
  }

  /** `created_at` is the time of the write: the message's own timestamp never reaches the row. */
  lemma RowIgnoresMessageTimestamp(m: NotificationMessage, status: string, error: Option<string>, now: int, t: int)
    ensures BuildRow(m.(createdAt := t), status, error, now) == BuildRow(m, status, error, now)
    ensures BuildRow(m, status, error, now).createdAt == now
  {
  }

  /**
   * Nothing is lost or altered on the way into the row: two rows are equal
   * only when they record the same type, recipient, subject and text, with
   * the same status, error and write time.
   */
  lemma RowDeterminesContent(m1: NotificationMessage, m2: NotificationMessage,
                             s1: string, s2: string, e1: Option<string>, e2: Option<string>,
                             now1: int, now2: int)
    requires BuildRow(m1, s1, e1, now1) == BuildRow(m2, s2, e2, now2)
    ensures m1.(createdAt := 0) == m2.(createdAt := 0)
    ensures s1 == s2 && e1 == e2 && now1 == now2
  {
    TypeNameInjective(m1.kind, m2.kind);
  }

  /** What the database answers to one insert: it is stored, or the insert throws. */
  datatype SaveResult = Saved | SaveFailed(error: string)

  /** The one-row list a save leaves behind: the row when stored, nothing when the insert failed. */
  function SavedRows(row: LogRow, result: SaveResult): seq<LogRow>
  {
    if result.Saved? then [row] else []
  }

  /** The exception a save throws to its caller, if any. */
  function Thrown(result: SaveResult): Option<string>
  {
    if result.Saved? then None else Some(result.error)
  }

  /** The repository; `rows` is the contents of `notification_logs`. */
  class NotificationLogRepository {
    var rows: seq<LogRow>

    constructor ()
      ensures rows == []
    {
      rows := [];
    }

    /**
     * Inserts exactly one row; an insert failure propagates to the caller
     * and leaves the table as it was. `error` is null when omitted.
     */
    method SaveAsync(message: NotificationMessage, status: string, now: int, result: SaveResult,
                     error: Option<string> := None)
      returns (thrown: Option<string>)
      modifies this
      ensures rows == old(rows) + SavedRows(BuildRow(message, status, error, now), result)
      ensures thrown == Thrown(result)
      ensures result.Saved? ==> (
                var row := rows[|rows| - 1];
                && row.kind == TypeName(message.kind)
                && row.recipient == message.recipient
                && row.subject == message.subject
                && row.message == message.message
                && row.status == status
                && row.errorMessage == error
                && row.createdAt == now)
    {
      var row := BuildRow(message, status, error, now);
      match result {
        case Saved =>
          rows := rows + [row];
          thrown := None;
        case SaveFailed(e) =>
          thrown := Some(e);
      }
    }
  }
}

=== FILE: push_consumer.dfy ===
/**
 * The push service: a consume loop on `notifications-push` and a retry
 * loop whose "send" is a placeholder that cannot fail; only the insert of
 * the SUCCESS row can throw.
 */
module PushConsumer {
  import opened Wrappers
  import opened Common
  import opened NotificationLog
  import opened Retry
  import KafkaProducer

  const Topic: string := "notifications-push"

  /** The service subscribes to the topic the gateway routes push notifications to. */
  lemma TopicMatchesRouting()
    ensures Topic == KafkaProducer.TopicFor(Push)
    ensures forall t :: KafkaProducer.TopicFor(t) == Topic <==> t == Push
  {
  }

  /** One entry per possible attempt: how that attempt's SUCCESS insert goes. */
  type PushScript = s: seq<SaveResult> | |s| == MaxRetryAttempts
    witness [Saved, Saved, Saved]

  function Errors(script: PushScript): (errs: seq<Option<string>>)
    ensures |errs| == MaxRetryAttempts
    ensures forall i :: 0 <= i < |errs| ==> errs[i] == Thrown(script[i])
  {
    seq(|script|, i requires 0 <= i < |script| => Thrown(script[i]))
  }

  /**
   * The effect of `ProcessWithRetry(message)`: every attempt bumps the sent
   * counter and then inserts a SUCCESS row; the first insert that succeeds
   * ends the loop, each one that throws is followed by a delay. After three
   * throwing inserts the failed counter is bumped and a FAILED row carrying
   * the last exception's message is inserted.
   */
  function Process(m: NotificationMessage, script: PushScript, finalSave: SaveResult, now: int): (r: Processed)
    ensures 1 <= r.delta.attempts <= MaxRetryAttempts && |r.delta.rows| <= 1
    ensures r.delta.sent == r.delta.attempts && r.delta.failed <= 1
    ensures r.delta.delays == r.delta.attempts - 1 + r.delta.failed
    ensures r.delta.warnings == 0 && r.delta.kafkaErrors == 0 && r.delta.errors == 0
    ensures r.escaped.Some? ==> r.delta.failed == 1 && r.delta.rows == []
  {
    var errs := Errors(script);
    var n := FirstReturn(errs);
    var k := AttemptsMade(errs);
    if n < MaxRetryAttempts then
      Processed(Tally(k, 0, k, n, 0, 0, 0, [BuildRow(m, StatusSuccess, None, now)]), None)
    else
      Processed(Tally(k, 1, k, k, 0, 0, 0, SavedRows(BuildRow(m, StatusFailed, errs[k - 1], now), finalSave)),
                Thrown(finalSave))
  }

  /** What the loop has added after `i` attempts whose inserts all threw. */
  function Failing(i: nat): Tally
  {
    Zero.(sent := i, attempts := i, delays := i)
  }

  /** What the body of one attempt's `try` adds: the attempt, the sent count, the SUCCESS row. */
  function TryTally(m: NotificationMessage, save: SaveResult, now: int): Tally
  {
    Zero.(sent := 1, attempts := 1, rows := SavedRows(BuildRow(m, StatusSuccess, None, now), save))
  }

  lemma ThrownAttemptStep(start: Tally, cur: Tally, m: NotificationMessage, script: PushScript, i: nat, now: int)
    requires i < |script| && script[i].SaveFailed? && i <= FirstReturn(Errors(script))
    requires cur == Add(start, Failing(i))
    ensures Add(Add(cur, TryTally(m, script[i], now)), Zero.(delays := 1)) == Add(start, Failing(i + 1))
    ensures i + 1 <= FirstReturn(Errors(script)) && Errors(script)[i] == Thrown(script[i])
  {
  }

  lemma ReturnedAttemptStep(start: Tally, cur: Tally, m: NotificationMessage, script: PushScript,
                            finalSave: SaveResult, now: int, j: nat)
    requires j < |script| && FirstReturn(Errors(script)) == j
    requires cur == Add(start, Failing(j))
    ensures Add(cur, TryTally(m, script[j], now)) == Add(start, Process(m, script, finalSave, now).delta)
    ensures Process(m, script, finalSave, now).escaped == None
  {
    assert Errors(script)[j].None?;
  }

  lemma ExhaustedStep(start: Tally, cur: Tally, m: NotificationMessage, script: PushScript,
                      finalSave: SaveResult, now: int)
    requires FirstReturn(Errors(script)) == MaxRetryAttempts
    requires cur == Add(start, Failing(MaxRetryAttempts))
    ensures Add(Add(cur, Zero.(failed := 1)),
                Zero.(rows := SavedRows(BuildRow(m, StatusFailed, Errors(script)[MaxRetryAttempts - 1], now), finalSave)))
         == Add(start, Process(m, script, finalSave, now).delta)
    ensures Process(m, script, finalSave, now).escaped == Thrown(finalSave)
  {
  }

  // ---------------------------------------------------------------------------
  // Properties of one message's processing
  // ---------------------------------------------------------------------------

  /**
   * When the first insert succeeds: one attempt, no delay, the sent counter
   * up by one, one SUCCESS row with a null error.
   */
  lemma FirstInsertSucceeds(m: NotificationMessage, script: PushScript, finalSave: SaveResult, now: int)
    requires script[0].Saved?
    ensures var r := Process(m, script, finalSave, now);
      && r.delta == Zero.(sent := 1, attempts := 1, rows := [BuildRow(m, StatusSuccess, None, now)])
      && r.escaped == None
  {
    assert Errors(script)[0].None?;
  }

  /**
   * The first insert that succeeds ends the loop: `j + 1` attempts, `j`
   * delays, and the sent counter up by `j + 1`, once for every attempt.
   */
  lemma SucceedsOnAttempt(m: NotificationMessage, script: PushScript, finalSave: SaveResult, now: int, j: nat)
    requires j < MaxRetryAttempts
    requires forall i :: 0 <= i < j ==> script[i].SaveFailed?
    requires script[j].Saved?
    ensures var r := Process(m, script, finalSave, now);
      && r.delta == Tally(j + 1, 0, j + 1, j, 0, 0, 0, [BuildRow(m, StatusSuccess, None, now)])
      && r.escaped == None
  {
    var errs := Errors(script);
    assert errs[j].None?;
    assert forall i :: 0 <= i < j ==> errs[i].Some?;
  }

  /**
   * When all three inserts throw: three attempts, three delays, three sent
   * counts, one failure count, and one FAILED row (if its own insert
   * succeeds) carrying the third exception's message.
   */
  lemma AllInsertsFail(m: NotificationMessage, script: PushScript, finalSave: SaveResult, now: int)
    requires forall i :: 0 <= i < |script| ==> script[i].SaveFailed?
    ensures var r := Process(m, script, finalSave, now);
      && r.delta.attempts == 3 && r.delta.delays == 3 && r.delta.sent == 3 && r.delta.failed == 1
      && r.delta.rows == SavedRows(BuildRow(m, StatusFailed, Some(script[2].error), now), finalSave)
      && r.escaped == Thrown(finalSave)
  {
    var errs := Errors(script);
    assert forall i :: 0 <= i < |errs| ==> errs[i].Some?;
  }

  // ---------------------------------------------------------------------------
  // The service
  // ---------------------------------------------------------------------------

  /**
   * `PushConsumerService` with its process-wide counters (`push_sent_total`,
   * `push_failed_total`) and the bookkeeping of its loops.
   */
  class PushConsumerService {
    var sentTotal: nat
    var failedTotal: nat
    var attempts: nat
    var delays: nat
    var warnings: nat
    var kafkaErrors: nat
    var errors: nat
    const repository: NotificationLogRepository

    function Observe(): Tally
      reads this, repository
    {
      Tally(sentTotal, failedTotal, attempts, delays, warnings, kafkaErrors, errors, repository.rows)
    }

    constructor (repository: NotificationLogRepository)
      ensures this.repository == repository
      ensures Observe() == Zero.(rows := repository.rows)
    {
      this.repository := repository;
      sentTotal, failedTotal, attempts, delays := 0, 0, 0, 0;
      warnings, kafkaErrors, errors := 0, 0, 0;
    }

    /**
     * The body of one attempt's `try`: `attempt++`, the sent counter, the
     * SUCCESS insert. Returns what it throws.
     */
    method Attempt(message: NotificationMessage, save: SaveResult, now: int) returns (error: Option<string>)
      modifies this, repository
      ensures error == Thrown(save)
      ensures Observe() == Add(old(Observe()), TryTally(message, save, now))
    {
      attempts := attempts + 1;
      sentTotal := sentTotal + 1;
      error := repository.SaveAsync(message, StatusSuccess, now, save);
    }

    /** After the last attempt: the failed counter, then the FAILED insert carrying the last error. */
    method GiveUp(message: NotificationMessage, lastError: Option<string>, finalSave: SaveResult, now: int)
      returns (thrown: Option<string>)
      modifies this, repository
      ensures Observe() == Add(old(Observe()), Zero.(failed := 1, rows := SavedRows(BuildRow(message, StatusFailed, lastError, now), finalSave)))
      ensures thrown == Thrown(finalSave)
    {
      failedTotal := failedTotal + 1;
      thrown := repository.SaveAsync(message, StatusFailed, now, finalSave, lastError);
    }

    method ProcessWithRetry(message: NotificationMessage, script: PushScript, finalSave: SaveResult, now: int)
      returns (thrown: Option<string>)
      modifies this, repository
      ensures Observe() == Add(old(Observe()), Process(message, script, finalSave, now).delta)
      ensures thrown == Process(message, script, finalSave, now).escaped
    {
      ghost var start := Observe();
      ghost var errs := Errors(script);
      var attempt := 0;
      var lastError: Option<string> := None;
      while attempt < MaxRetryAttempts
        invariant 0 <= attempt <= MaxRetryAttempts && attempt <= FirstReturn(errs)
        invariant attempt > 0 ==> lastError == errs[attempt - 1]
        invariant Observe() == Add(start, Failing(attempt))
      {
        ghost var cur := Observe();
        attempt := attempt + 1;
        var error := Attempt(message, script[attempt - 1], now);
        if error.None? {
          ReturnedAttemptStep(start, cur, message, script, finalSave, now, attempt - 1);
          return None;
        }
        // the `catch`: remember the exception, wait one second
        lastError := error;
        delays := delays + 1;
        ThrownAttemptStep(start, cur, message, script, attempt - 1, now);
      }
      ghost var cur := Observe();
      thrown := GiveUp(message, lastError, finalSave, now);
      ExhaustedStep(start, cur, message, script, finalSave, now);
    }

    /**
     * One turn of the consume loop, inside its `try`: a `ConsumeException`
     * and any other exception are caught and logged, a null message is
     * logged as a warning, and a message is handed to `ProcessWithRetry`.
     */
    method ConsumeOne(d: Delivery<PushScript>)
      modifies this, repository
      ensures Observe() == Add(old(Observe()), DeliveryEffect(d, Process))
    {
      match d {
        case ConsumeFailed(_) =>
          kafkaErrors := kafkaErrors + 1;
        case Received(payload, script, finalSave, now) =>
          match payload {
            case NullPayload =>
              warnings := warnings + 1;
            case Malformed(_) =>
              errors := errors + 1;
            case Parsed(m) =>
              var thrown := ProcessWithRetry(m, script, finalSave, now);
              if thrown.Some? {
                errors := errors + 1;
              }
          }
      }
    }

    /**
     * `ExecuteAsync`: building or subscribing the consumer is not guarded,
     * so a failure there escapes the service before anything is processed.
     * Otherwise every delivery is handled in order and no exception ends the
     * loop; the stream ends where the loop head sees the cancellation.
     */
    method ExecuteAsync(startup: Option<string>, deliveries: seq<Delivery<PushScript>>)
      returns (thrown: Option<string>)
      modifies this, repository
      ensures thrown == startup
      ensures startup.Some? ==> Observe() == old(Observe())
      ensures startup.None? ==> Observe() == Add(old(Observe()), RunEffect(deliveries, Process))
    {
      if startup.Some? {
        return startup;
      }
      var i := 0;
      while i < |deliveries|
        invariant 0 <= i <= |deliveries|
        invariant Observe() == Add(old(Observe()), RunEffect(deliveries[..i], Process))
      {
        ghost var before := Observe();
        ConsumeOne(deliveries[i]);
        RunEffectStep(old(Observe()), before, deliveries, i, Process);
        i := i + 1;
      }
      assert deliveries[..i] == deliveries;
      thrown := None;
    }
  }

  /** Over any stream: at most one row and at most three attempts per deserialized message. */
  lemma StreamBounds(deliveries: seq<Delivery<PushScript>>)
    ensures |RunEffect(deliveries, Process).rows| <= ParsedCount(deliveries)
    ensures RunEffect(deliveries, Process).attempts <= MaxRetryAttempts * ParsedCount(deliveries)
  {
    RunEffectBounds(deliveries, Process);
  }
}

=== FILE: retry.dfy ===
/**
 * What the three consumer services share: the attempt bound, the effects a
 * message leaves behind (counters, delays, log rows), and the consume loop's
 * treatment of each delivery. Each service keeps its own copy of the retry
 * loop; this module only gives the vocabulary their specifications use.
 */
module Retry {
  import opened Wrappers
  import opened Common
  import opened NotificationLog

  /** `MaxRetryAttempts` of every consumer. */
  const MaxRetryAttempts: nat := 3

  /**
   * Given what each attempt throws (`None`: the attempt ran to its `return`),
   * the index of the first attempt that returns, or `|errs|` if none does.
   */
  function FirstReturn(errs: seq<Option<string>>): (n: nat)
    ensures n <= |errs|
    ensures forall j :: 0 <= j < n ==> errs[j].Some?
    ensures n < |errs| ==> errs[n].None?
  {
    if errs == [] || errs[0].None? then 0 else 1 + FirstReturn(errs[1..])
  }

  /** How many attempts the loop makes: up to and including the first that returns. */
  function AttemptsMade(errs: seq<Option<string>>): nat
  {
    if FirstReturn(errs) < |errs| then FirstReturn(errs) + 1 else |errs|
  }

  /** The number of elements of `s` that satisfy `p`. */
  function Count<A>(s: seq<A>, p: A -> bool): (c: nat)
    ensures c <= |s|
  {
    if s == [] then 0 else Count(s[..|s| - 1], p) + (if p(s[|s| - 1]) then 1 else 0)
  }

  lemma {:induction false} CountNone<A>(s: seq<A>, p: A -> bool)
    requires forall i :: 0 <= i < |s| ==> !p(s[i])
    ensures Count(s, p) == 0
  {
    if s != [] {
      CountNone(s[..|s| - 1], p);
    }
  }

  lemma {:induction false} CountAll<A>(s: seq<A>, p: A -> bool)
    requires forall i :: 0 <= i < |s| ==> p(s[i])
    ensures Count(s, p) == |s|
  {
    if s != [] {
      CountAll(s[..|s| - 1], p);
    }
  }

  /** An attempt that threw. */
  predicate Threw(e: Option<string>)
  {
    e.Some?
  }

  /**
   * Of the attempts the loop makes, exactly the ones before the first
   * `return` threw: their number is `FirstReturn`, whether or not some
   * attempt returned.
   */
  lemma ThrownBeforeReturn(errs: seq<Option<string>>)
    ensures Count(errs[..AttemptsMade(errs)], Threw) == FirstReturn(errs)
  {
    var n := FirstReturn(errs);
    if n < |errs| {
      CountAll(errs[..n], Threw);
      CountPrefix(errs, n, Threw);
    } else {
      assert errs[..|errs|] == errs;
      CountAll(errs, Threw);
    }
  }

  /** Extending a prefix by one element adds that element's vote. */
  lemma CountPrefix<A>(s: seq<A>, i: nat, p: A -> bool)
    requires i < |s|
    ensures Count(s[..i + 1], p) == Count(s[..i], p) + (if p(s[i]) then 1 else 0)
  {
    assert s[..i + 1][..i] == s[..i];
  }

  // ---------------------------------------------------------------------------
  // Observable effects
  // ---------------------------------------------------------------------------

  /**
   * What a service leaves observable: the sent and failed counters, the
   * attempts and one-second delays of its retry loops, the warnings (null
   * payload), the Kafka errors and the other errors its consume loop logs,
   * and the rows its repository stored.
   */
  datatype Tally = Tally(
    sent: nat,
    failed: nat,
    attempts: nat,
    delays: nat,
    warnings: nat,
    kafkaErrors: nat,
    errors: nat,
    rows: seq<LogRow>)

  const Zero: Tally := Tally(0, 0, 0, 0, 0, 0, 0, [])

  /** Counters add up; rows are appended in order. */
  function Add(a: Tally, b: Tally): Tally
  {
    Tally(a.sent + b.sent, a.failed + b.failed, a.attempts + b.attempts, a.delays + b.delays,
          a.warnings + b.warnings, a.kafkaErrors + b.kafkaErrors, a.errors + b.errors,
          a.rows + b.rows)
  }

  lemma AddAssociative(a: Tally, b: Tally, c: Tally)
    ensures Add(Add(a, b), c) == Add(a, Add(b, c))
  {
    assert (a.rows + b.rows) + c.rows == a.rows + (b.rows + c.rows);
  }

  /** The effect of one `ProcessWithRetry` call, and the exception that escapes it, if any. */
  datatype Processed = Processed(delta: Tally, escaped: Option<string>)

  // ---------------------------------------------------------------------------
  // The consume loop
  // ---------------------------------------------------------------------------

  /** What deserializing a record's value yields: a message, null, or an exception. */
  datatype Payload = Parsed(message: NotificationMessage) | NullPayload | Malformed(error: string)

  /**
   * One turn of the consume loop: `Consume` throws a `ConsumeException`, or
   * it returns a record. For a record, `script` says how each send attempt
   * would go, `finalSave` how the FAILED insert after the last attempt would
   * go, and `now` is the clock for the rows written.
   */
  datatype Delivery<S> =
    | ConsumeFailed(reason: string)
    | Received(payload: Payload, script: S, finalSave: SaveResult, now: int)

  /** A service's `ProcessWithRetry`, as a function of the message and its oracle. */
  type Processor<!S> = (NotificationMessage, S, SaveResult, int) -> Processed

  /**
   * One loop turn: a `ConsumeException` is logged as a Kafka error, a null
   * message as a warning, a deserializer exception or an exception escaping
   * `ProcessWithRetry` as an error; none of them stops the loop.
   */
  function DeliveryEffect<S>(d: Delivery<S>, process: Processor<S>): (e: Tally)
    ensures !(d.Received? && d.payload.Parsed?) ==>
      && e.attempts == 0 && e.rows == [] && e.sent == 0 && e.failed == 0 && e.delays == 0
      && e.warnings + e.kafkaErrors + e.errors == 1
      && (d.Received? && d.payload.NullPayload? <==> e.warnings == 1)
      && (d.ConsumeFailed? <==> e.kafkaErrors == 1)
  {
    match d
    case ConsumeFailed(_) => Zero.(kafkaErrors := 1)
    case Received(payload, script, finalSave, now) =>
      match payload
      case NullPayload => Zero.(warnings := 1)
      case Malformed(_) => Zero.(errors := 1)
      case Parsed(m) =>
        var r := process(m, script, finalSave, now);
        if r.escaped.Some? then r.delta.(errors := r.delta.errors + 1) else r.delta
  }

  /**
   * A deserialized message is handed to `ProcessWithRetry`: the turn costs
   * exactly what processing costs, plus one logged error when an exception
   * escapes it.
   */
  lemma ParsedDeliveryEffect<S>(d: Delivery<S>, process: Processor<S>)
    requires d.Received? && d.payload.Parsed?
    ensures var e := DeliveryEffect(d, process);
      var r := process(d.payload.message, d.script, d.finalSave, d.now);
      && e.attempts == r.delta.attempts && e.rows == r.delta.rows
      && e.sent == r.delta.sent && e.failed == r.delta.failed && e.delays == r.delta.delays
      && e.warnings == r.delta.warnings && e.kafkaErrors == r.delta.kafkaErrors
      && e.errors == r.delta.errors + (if r.escaped.Some? then 1 else 0)
  {
  }

  /** The loop over a stream of deliveries, in order. */
  function RunEffect<S>(ds: seq<Delivery<S>>, process: Processor<S>): (e: Tally)
    ensures ParsedCount(ds) == 0 ==> e.attempts == 0 && e.rows == [] && e.sent == 0 && e.failed == 0 && e.delays == 0
    ensures e.warnings + e.kafkaErrors + e.errors >= |ds| - ParsedCount(ds)
  {
    if ds == [] then Zero else Add(RunEffect(ds[..|ds| - 1], process), DeliveryEffect(ds[|ds| - 1], process))
  }

  lemma RunEffectPrefix<S>(ds: seq<Delivery<S>>, i: nat, process: Processor<S>)
    requires i < |ds|
    ensures RunEffect(ds[..i + 1], process) == Add(RunEffect(ds[..i], process), DeliveryEffect(ds[i], process))
  {
    assert ds[..i + 1][..i] == ds[..i];
  }

  /** One more loop turn extends the running total by that delivery's effect. */
  lemma RunEffectStep<S>(start: Tally, now: Tally, ds: seq<Delivery<S>>, i: nat, process: Processor<S>)
    requires i < |ds|
    requires now == Add(start, RunEffect(ds[..i], process))
    ensures Add(now, DeliveryEffect(ds[i], process)) == Add(start, RunEffect(ds[..i + 1], process))
  {
    RunEffectPrefix(ds, i, process);
    AddAssociative(start, RunEffect(ds[..i], process), DeliveryEffect(ds[i], process));
  }

  /** The number of deliveries that deserialized to a message. */
  function ParsedCount<S>(ds: seq<Delivery<S>>): nat
  {
    if ds == [] then 0
    else ParsedCount(ds[..|ds| - 1]) + (if ds[|ds| - 1].Received? && ds[|ds| - 1].payload.Parsed? then 1 else 0)
  }

  /**
   * Over any stream, a service whose `ProcessWithRetry` writes at most one
   * row and makes at most `MaxRetryAttempts` attempts per message writes at
   * most one row per deserialized message and makes at most three attempts
   * per deserialized message.
   */
  lemma {:induction false} RunEffectBounds<S>(ds: seq<Delivery<S>>, process: Processor<S>)
    requires forall m, s, f, now :: |process(m, s, f, now).delta.rows| <= 1
    requires forall m, s, f, now :: process(m, s, f, now).delta.attempts <= MaxRetryAttempts
    ensures |RunEffect(ds, process).rows| <= ParsedCount(ds)
    ensures RunEffect(ds, process).attempts <= MaxRetryAttempts * ParsedCount(ds)
  {
    if ds != [] {
      RunEffectBounds(ds[..|ds| - 1], process);
    }
  }
}

=== FILE: sms_consumer.dfy ===
/**
 * The SMS service: a consume loop on `notifications-sms` and a retry loop
 * around one HTTP POST to the SMS gateway per attempt.
 */
module SmsConsumer {
  import opened Wrappers
  import opened Common
  import opened NotificationLog
  import opened Retry
  import KafkaProducer

  const Topic: string := "notifications-sms"
  const SmsApiUrl: string := "https://textbelt.com/text"
  const SmsApiKey: string := "textbelt"

  /** The service subscribes to the topic the gateway routes SMS to. */
  lemma TopicMatchesRouting()
    ensures Topic == KafkaProducer.TopicFor(Sms)
    ensures forall t :: KafkaProducer.TopicFor(t) == Topic <==> t == Sms
  {
  }

  /** The JSON body `{phone, message, key}` posted to `url`. */
  datatype SmsRequest = SmsRequest(url: string, phone: Option<string>, message: Option<string>, key: string)

  /**
   * How the HTTP part of one attempt goes: a response with its status code
   * and body text, or an exception (from the POST or from reading the body).
   */
  datatype HttpResult = Response(statusCode: int, body: string) | HttpFailed(error: string)

  /** `HttpResponseMessage.IsSuccessStatusCode`: the status is in the 2xx class. */
  function IsSuccessStatusCode(code: int): (ok: bool)
    ensures ok <==> code / 100 == 2
  {
    200 <= code <= 299
  }

  /** The status an answered attempt records. */
  function StatusFor(code: int): (status: string)
    ensures status == StatusSuccess <==> IsSuccessStatusCode(code)
    ensures status == StatusFailed <==> !IsSuccessStatusCode(code)
  {
    if IsSuccessStatusCode(code) then StatusSuccess else StatusFailed
  }

  /** One attempt: the HTTP outcome, and how the insert would go if a response arrives. */
  datatype SmsAttempt = SmsAttempt(http: HttpResult, save: SaveResult)

  type SmsScript = s: seq<SmsAttempt> | |s| == MaxRetryAttempts
    witness [SmsAttempt(Response(200, ""), Saved), SmsAttempt(Response(200, ""), Saved), SmsAttempt(Response(200, ""), Saved)]

  /** The exception an attempt throws inside the `try`, or `None` when it reaches `return`. */
  function AttemptError(a: SmsAttempt): Option<string>
  {
    match a.http
    case HttpFailed(e) => Some(e)
    case Response(_, _) => Thrown(a.save)
  }

  /** An attempt answered with a 2xx status bumps `sms_sent_total`. */
  predicate SuccessResponse(a: SmsAttempt)
  {
    a.http.Response? && IsSuccessStatusCode(a.http.statusCode)
  }

  /** An attempt answered with any other status bumps `sms_failed_total`. */
  predicate ErrorResponse(a: SmsAttempt)
  {
    a.http.Response? && !IsSuccessStatusCode(a.http.statusCode)
  }

  function Errors(script: SmsScript): (errs: seq<Option<string>>)
    ensures |errs| == MaxRetryAttempts
    ensures forall i :: 0 <= i < |errs| ==> errs[i] == AttemptError(script[i])
  {
    seq(|script|, i requires 0 <= i < |script| => AttemptError(script[i]))
  }

  /**
   * The effect of `ProcessWithRetry(message)`: any response, whatever its
   * status, ends the loop once its row is stored; the status picks the
   * counter and the row's status, and the response body is stored as the
   * error text. Only exceptions are retried, each followed by a delay.
   * After three exceptions the failed counter is bumped once more and a
   * FAILED row carrying the last exception's message is inserted.
   */
  function Process(m: NotificationMessage, script: SmsScript, finalSave: SaveResult, now: int): (r: Processed)
    ensures 1 <= r.delta.attempts <= MaxRetryAttempts && |r.delta.rows| <= 1
    ensures r.delta.sent <= r.delta.attempts
    ensures r.delta.delays == r.delta.attempts || r.delta.delays + 1 == r.delta.attempts
    ensures r.delta.delays == r.delta.attempts ==> r.delta.attempts == MaxRetryAttempts && r.delta.failed >= 1
    ensures r.delta.warnings == 0 && r.delta.kafkaErrors == 0 && r.delta.errors == 0
    ensures r.escaped.Some? ==> r.delta.delays == MaxRetryAttempts && r.delta.rows == []
  {
    var errs := Errors(script);
    var n := FirstReturn(errs);
    var k := AttemptsMade(errs);
    var sent := Count(script[..k], SuccessResponse);
    var refused := Count(script[..k], ErrorResponse);
    if n < MaxRetryAttempts then
      Processed(Tally(sent, refused, k, n, 0, 0, 0, AnsweredRows(m, script[n], now)), None)
    else
      Processed(Tally(sent, refused + 1, k, k, 0, 0, 0, SavedRows(BuildRow(m, StatusFailed, errs[k - 1], now), finalSave)),
                Thrown(finalSave))
  }

  /** The row an attempt stores: one when a response arrived and its insert succeeded. */
  function AnsweredRows(m: NotificationMessage, a: SmsAttempt, now: int): seq<LogRow>
  {
    match a.http
    case Response(code, body) => SavedRows(BuildRow(m, StatusFor(code), Some(body), now), a.save)
    case HttpFailed(_) => []
  }

  /** What the loop has added after `i` attempts that all threw. */
  function Failing(script: SmsScript, i: nat): Tally
    requires i <= |script|
  {
    Tally(Count(script[..i], SuccessResponse), Count(script[..i], ErrorResponse), i, i, 0, 0, 0, [])
  }

  /** What the body of one attempt's `try` adds: the attempt, the counter the status selects, the row. */
  function TryTally(m: NotificationMessage, a: SmsAttempt, now: int): Tally
  {
    Zero.(sent := if SuccessResponse(a) then 1 else 0,
          failed := if ErrorResponse(a) then 1 else 0,
          attempts := 1,
          rows := AnsweredRows(m, a, now))
  }

  lemma ThrownAttemptStep(start: Tally, cur: Tally, m: NotificationMessage, script: SmsScript, i: nat, now: int)
    requires i < |script| && AttemptError(script[i]).Some? && i <= FirstReturn(Errors(script))
    requires cur == Add(start, Failing(script, i))
    ensures Add(Add(cur, TryTally(m, script[i], now)), Zero.(delays := 1)) == Add(start, Failing(script, i + 1))
    ensures i + 1 <= FirstReturn(Errors(script)) && Errors(script)[i] == AttemptError(script[i])
  {
    CountPrefix(script, i, SuccessResponse);
    CountPrefix(script, i, ErrorResponse);
  }

  lemma ReturnedAttemptStep(start: Tally, cur: Tally, m: NotificationMessage, script: SmsScript,
                            finalSave: SaveResult, now: int, j: nat)
    requires j < |script| && FirstReturn(Errors(script)) == j
    requires cur == Add(start, Failing(script, j))
    ensures Add(cur, TryTally(m, script[j], now)) == Add(start, Process(m, script, finalSave, now).delta)
    ensures Process(m, script, finalSave, now).escaped == None
    ensures Process(m, script, finalSave, now).delta.attempts == j + 1
  {
    CountPrefix(script, j, SuccessResponse);
    CountPrefix(script, j, ErrorResponse);
    assert Errors(script)[j].None?;
  }

  lemma ExhaustedStep(start: Tally, cur: Tally, m: NotificationMessage, script: SmsScript,
                      finalSave: SaveResult, now: int)
    requires FirstReturn(Errors(script)) == MaxRetryAttempts
    requires cur == Add(start, Failing(script, MaxRetryAttempts))
    ensures Add(Add(cur, Zero.(failed := 1)),
                Zero.(rows := SavedRows(BuildRow(m, StatusFailed, Errors(script)[MaxRetryAttempts - 1], now), finalSave)))
         == Add(start, Process(m, script, finalSave, now).delta)
    ensures Process(m, script, finalSave, now).escaped == Thrown(finalSave)
    ensures Process(m, script, finalSave, now).delta.attempts == MaxRetryAttempts
  {
    assert script[..MaxRetryAttempts] == script;
  }

  /** The request every attempt posts. */
  function RequestFor(m: NotificationMessage): (req: SmsRequest)
    ensures req.url == SmsApiUrl && req.key == SmsApiKey
    ensures req.phone == m.recipient && req.message == m.message
  {
    SmsRequest(SmsApiUrl, m.recipient, m.message, SmsApiKey)
  }

  /** Only the recipient and the text reach the gateway: type, subject and timestamp do not. */
  lemma RequestDependsOnRecipientAndText(m1: NotificationMessage, m2: NotificationMessage)
    ensures RequestFor(m1) == RequestFor(m2) <==> m1.recipient == m2.recipient && m1.message == m2.message
  {
  }

  /** The requests one delivery makes the service post: one per attempt, all for its message. */
  function DeliveryPosts(d: Delivery<SmsScript>): (posts: seq<SmsRequest>)
    ensures |posts| == DeliveryEffect(d, Process).attempts
  {
    match d
    case ConsumeFailed(_) => []
    case Received(payload, script, finalSave, now) =>
      match payload
      case Parsed(m) => Copies(RequestFor(m), Process(m, script, finalSave, now).delta.attempts)
      case NullPayload => []
      case Malformed(_) => []
  }

  /** The requests a stream of deliveries makes the service post, in order. */
  function StreamPosts(ds: seq<Delivery<SmsScript>>): (posts: seq<SmsRequest>)
    ensures |posts| == RunEffect(ds, Process).attempts
  {
    if ds == [] then [] else StreamPosts(ds[..|ds| - 1]) + DeliveryPosts(ds[|ds| - 1])
  }

  lemma StreamPostsStep(ds: seq<Delivery<SmsScript>>, i: nat)
    requires i < |ds|
    ensures StreamPosts(ds[..i + 1]) == StreamPosts(ds[..i]) + DeliveryPosts(ds[i])
  {
    assert ds[..i + 1][..i] == ds[..i];
  }

  /** `n` posts of the same request. */
  function Copies(req: SmsRequest, n: nat): (posts: seq<SmsRequest>)
    ensures |posts| == n && forall i :: 0 <= i < n ==> posts[i] == req
  {
    if n == 0 then [] else Copies(req, n - 1) + [req]
  }

  lemma CopiesStep(before: seq<SmsRequest>, req: SmsRequest, n: nat)
    ensures before + Copies(req, n) + [req] == before + Copies(req, n + 1)
  {
    assert Copies(req, n + 1) == Copies(req, n) + [req];
  }

  // ---------------------------------------------------------------------------
  // Properties of one message's processing
  // ---------------------------------------------------------------------------

  /**
   * The first attempt that gets a response and stores its row ends the
   * loop, 2xx or not: `j + 1` attempts, `j` delays, one row whose status
   * follows `IsSuccessStatusCode` and whose error text is the response body.
   * The status moves the sent counter (2xx) or the failed counter (any
   * other), on top of what earlier answered attempts whose insert threw
   * already counted.
   */
  lemma AnsweredAttemptEnds(m: NotificationMessage, script: SmsScript, finalSave: SaveResult, now: int, j: nat)
    requires j < MaxRetryAttempts
    requires forall i :: 0 <= i < j ==> script[i].http.HttpFailed? || script[i].save.SaveFailed?
    requires script[j].http.Response? && script[j].save.Saved?
    ensures var r := Process(m, script, finalSave, now);
      && r.delta.attempts == j + 1
      && r.delta.delays == j
      && r.delta.rows == [BuildRow(m, StatusFor(script[j].http.statusCode), Some(script[j].http.body), now)]
      && r.delta.sent == Count(script[..j], SuccessResponse) + (if IsSuccessStatusCode(script[j].http.statusCode) then 1 else 0)
      && r.delta.failed == Count(script[..j], ErrorResponse) + (if IsSuccessStatusCode(script[j].http.statusCode) then 0 else 1)
      && r.escaped == None
  {
    var errs := Errors(script);
    assert errs[j].None?;
    assert forall i :: 0 <= i < j ==> errs[i].Some?;
    CountPrefix(script, j, SuccessResponse);
    CountPrefix(script, j, ErrorResponse);
  }

  /** A 200 response with body "OK" on the first attempt gives a SUCCESS row whose error text is "OK". */
  lemma OkResponseStoresBody(m: NotificationMessage, rest: SmsAttempt, finalSave: SaveResult, now: int)
    ensures var script := [SmsAttempt(Response(200, "OK"), Saved), rest, rest];
      var r := Process(m, script, finalSave, now);
      && r.delta.rows == [BuildRow(m, StatusSuccess, Some("OK"), now)]
      && r.delta.sent == 1 && r.delta.failed == 0 && r.delta.attempts == 1
  {
    var script: SmsScript := [SmsAttempt(Response(200, "OK"), Saved), rest, rest];
    AnsweredAttemptEnds(m, script, finalSave, now, 0);
    assert script[..1] == [script[0]];
  }

  /**
   * When every attempt throws before a response: three attempts, three
   * delays, the failed counter up by exactly one, the sent counter
   * unchanged, and one FAILED row (if stored) with the third exception's message.
   */
  lemma {:induction false} AllAttemptsThrow(m: NotificationMessage, script: SmsScript, finalSave: SaveResult, now: int)
    requires forall i :: 0 <= i < |script| ==> script[i].http.HttpFailed?
    ensures var r := Process(m, script, finalSave, now);
      && r.delta.attempts == MaxRetryAttempts
      && r.delta.delays == MaxRetryAttempts
      && r.delta.failed == 1 && r.delta.sent == 0
      && r.delta.rows == SavedRows(BuildRow(m, StatusFailed, Some(script[2].http.error), now), finalSave)
      && r.escaped == Thrown(finalSave)
  {
    assert script[..MaxRetryAttempts] == script;
    CountNone(script, SuccessResponse);
    CountNone(script, ErrorResponse);
  }

  /**
   * When every attempt throws, whether the POST threw or the insert after a
   * response did: three attempts, three delays, every answered attempt's
   * counter bump, one more failure count, and one FAILED row (if stored)
   * carrying the third exception's message.
   */
  lemma {:induction false} AllAttemptsFail(m: NotificationMessage, script: SmsScript, finalSave: SaveResult, now: int)
    requires forall i :: 0 <= i < |script| ==> AttemptError(script[i]).Some?
    ensures var r := Process(m, script, finalSave, now);
      && r.delta.attempts == MaxRetryAttempts
      && r.delta.delays == MaxRetryAttempts
      && r.delta.sent == Count(script, SuccessResponse)
      && r.delta.failed == Count(script, ErrorResponse) + 1
      && AttemptError(script[2]).Some?
      && r.delta.rows == SavedRows(BuildRow(m, StatusFailed, AttemptError(script[2]), now), finalSave)
      && r.escaped == Thrown(finalSave)
  {
    assert script[..MaxRetryAttempts] == script;
  }

  /**
   * A refused SMS whose insert throws, a network failure, then an accepted
   * SMS whose insert throws: one send count, two failure counts (the refusal
   * and the give-up), three delays, and a FAILED row with the last database error.
   */
  lemma MixedFailuresExhaust(m: NotificationMessage, now: int)
    ensures var script := [SmsAttempt(Response(500, "x"), SaveFailed("db1")),
                           SmsAttempt(HttpFailed("net"), Saved),
                           SmsAttempt(Response(200, "ok"), SaveFailed("db2"))];
      var r := Process(m, script, Saved, now);
      && r.delta.attempts == 3 && r.delta.delays == 3
      && r.delta.sent == 1 && r.delta.failed == 2
      && r.delta.rows == [BuildRow(m, StatusFailed, Some("db2"), now)]
  {
    var script: SmsScript := [SmsAttempt(Response(500, "x"), SaveFailed("db1")),
                              SmsAttempt(HttpFailed("net"), Saved),
                              SmsAttempt(Response(200, "ok"), SaveFailed("db2"))];
    AllAttemptsFail(m, script, Saved, now);
    assert script[..2][..1] == [script[0]] && script[..2] == script[..1] + [script[1]];
    assert script == script[..2] + [script[2]];
  }

  /** A delay follows every attempt that throws, and no other: delays == failed attempts. */
  lemma {:induction false} DelaysEqualFailedAttempts(m: NotificationMessage, script: SmsScript, finalSave: SaveResult, now: int)
    ensures var d := Process(m, script, finalSave, now).delta;
      d.delays == Count(Errors(script)[..d.attempts], Threw)
  {
    ThrownBeforeReturn(Errors(script));
  }

  /**
   * With a store that never fails, each message moves exactly one counter
   * by exactly one: sent for a 2xx response, failed for any other response
   * or for three exceptions.
   */
  lemma {:induction false} ReliableStoreCountsOnce(m: NotificationMessage, script: SmsScript, finalSave: SaveResult, now: int)
    requires forall i :: 0 <= i < |script| ==> script[i].save.Saved?
    ensures var d := Process(m, script, finalSave, now).delta;
      d.sent + d.failed == 1
    ensures (forall i :: 0 <= i < |script| ==> script[i].http.HttpFailed?) ==>
      Process(m, script, finalSave, now).delta.failed == 1
    ensures forall j :: 0 <= j < |script| && script[j].http.Response?
                        && (forall i :: 0 <= i < j ==> script[i].http.HttpFailed?) ==>
      (Process(m, script, finalSave, now).delta.sent == 1 <==> IsSuccessStatusCode(script[j].http.statusCode))
  {
    var errs := Errors(script);
    var n := FirstReturn(errs);
    forall i | 0 <= i < n
      ensures !SuccessResponse(script[i]) && !ErrorResponse(script[i]) && script[i].http.HttpFailed?
    {
      assert errs[i].Some?;
    }
    if n < MaxRetryAttempts {
      assert errs[n].None? && script[n].http.Response?;
      CountNone(script[..n], SuccessResponse);
      CountNone(script[..n], ErrorResponse);
      CountPrefix(script, n, SuccessResponse);
      CountPrefix(script, n, ErrorResponse);
    } else {
      assert script[..MaxRetryAttempts] == script;
      CountNone(script, SuccessResponse);
      CountNone(script, ErrorResponse);
    }
  }

  /**
   * The counter bump comes before the insert, so an insert that throws
   * re-posts the SMS: three 200 responses whose inserts all fail give three
   * sent counts, then one failure count and a FAILED row with the database error.
   */
  lemma StoreFailureReposts(m: NotificationMessage, dbError: string, now: int)
    ensures var a := SmsAttempt(Response(200, "OK"), SaveFailed(dbError));
      var r := Process(m, [a, a, a], Saved, now);
      && r.delta.attempts == 3 && r.delta.sent == 3 && r.delta.failed == 1 && r.delta.delays == 3
      && r.delta.rows == [BuildRow(m, StatusFailed, Some(dbError), now)]
  {
    var a := SmsAttempt(Response(200, "OK"), SaveFailed(dbError));
    var script: SmsScript := [a, a, a];
    var errs := Errors(script);
    assert errs == [Some(dbError), Some(dbError), Some(dbError)];
    assert script[..3] == script;
    CountAll(script, SuccessResponse);
    CountNone(script, ErrorResponse);
  }

  /**
   * A refused SMS whose insert throws is counted as failed and then posted
   * again: three non-2xx responses whose inserts all fail count four
   * failures (one per attempt, one after the last) and no sends.
   */
  lemma RefusedStoreFailureCountsFourFailures(m: NotificationMessage, code: int, body: string, dbError: string, now: int)
    requires !IsSuccessStatusCode(code)
    ensures var a := SmsAttempt(Response(code, body), SaveFailed(dbError));
      var r := Process(m, [a, a, a], Saved, now);
      && r.delta.attempts == 3 && r.delta.sent == 0 && r.delta.failed == 4 && r.delta.delays == 3
      && r.delta.rows == [BuildRow(m, StatusFailed, Some(dbError), now)]
  {
    var a := SmsAttempt(Response(code, body), SaveFailed(dbError));
    var script: SmsScript := [a, a, a];
    var errs := Errors(script);
    assert errs == [Some(dbError), Some(dbError), Some(dbError)];
    assert script[..3] == script;
    CountNone(script, SuccessResponse);
    CountAll(script, ErrorResponse);
  }

  // ---------------------------------------------------------------------------
  // The service
  // ---------------------------------------------------------------------------

  /**
   * `SmsConsumerService` with its process-wide counters (`sms_sent_total`,
   * `sms_failed_total`), the requests it has posted, and the bookkeeping of
   * its loops.
   */
  class SmsConsumerService {
    var sentTotal: nat
    var failedTotal: nat
    var attempts: nat
    var delays: nat
    var warnings: nat
    var kafkaErrors: nat
    var errors: nat
    /** Every POST sent to the SMS gateway, in order. */
    var posts: seq<SmsRequest>
    const repository: NotificationLogRepository

    function Observe(): Tally
      reads this, repository
    {
      Tally(sentTotal, failedTotal, attempts, delays, warnings, kafkaErrors, errors, repository.rows)
    }

    constructor (repository: NotificationLogRepository)
      ensures this.repository == repository && posts == []
      ensures Observe() == Zero.(rows := repository.rows)
    {
      this.repository := repository;
      sentTotal, failedTotal, attempts, delays := 0, 0, 0, 0;
      warnings, kafkaErrors, errors := 0, 0, 0;
      posts := [];
    }

    /**
     * Posts `{phone: Recipient, message: Message, key: SmsApiKey}` to
     * `SmsApiUrl`; `outcome` is what the gateway (or the network) answers.
     */
    method SendSmsAsync(message: NotificationMessage, outcome: HttpResult) returns (response: HttpResult)
      modifies this`posts
      ensures posts == old(posts) + [SmsRequest(SmsApiUrl, message.recipient, message.message, SmsApiKey)]
      ensures response == outcome
    {
      posts := posts + [SmsRequest(SmsApiUrl, message.recipient, message.message, SmsApiKey)];
      response := outcome;
    }

    /**
     * The body of one attempt's `try`: `attempt++`, the POST, reading the
     * body, the counter the status selects, the insert with the body as
     * error text. Returns what it throws.
     */
    method Attempt(message: NotificationMessage, a: SmsAttempt, now: int) returns (error: Option<string>)
      modifies this, repository
      ensures error == AttemptError(a)
      ensures Observe() == Add(old(Observe()), TryTally(message, a, now))
      ensures posts == old(posts) + [RequestFor(message)]
    {
      attempts := attempts + 1;
      var response := SendSmsAsync(message, a.http);
      match response {
        case HttpFailed(e) =>
          error := Some(e);
        case Response(code, body) =>
          var success := IsSuccessStatusCode(code);
          var status := if success then StatusSuccess else StatusFailed;
          if success {
            sentTotal := sentTotal + 1;
          } else {
            failedTotal := failedTotal + 1;
          }
          error := repository.SaveAsync(message, status, now, a.save, Some(body));
      }
    }

    /** After the last attempt: the failed counter, then the FAILED insert carrying the last error. */
    method GiveUp(message: NotificationMessage, lastError: Option<string>, finalSave: SaveResult, now: int)
      returns (thrown: Option<string>)
      modifies this, repository
      ensures Observe() == Add(old(Observe()), Zero.(failed := 1, rows := SavedRows(BuildRow(message, StatusFailed, lastError, now), finalSave)))
      ensures thrown == Thrown(finalSave)
      ensures posts == old(posts)
    {
      failedTotal := failedTotal + 1;
      thrown := repository.SaveAsync(message, StatusFailed, now, finalSave, lastError);
    }

    method ProcessWithRetry(message: NotificationMessage, script: SmsScript, finalSave: SaveResult, now: int)
      returns (thrown: Option<string>)
      modifies this, repository
      ensures Observe() == Add(old(Observe()), Process(message, script, finalSave, now).delta)
      ensures thrown == Process(message, script, finalSave, now).escaped
      ensures posts == old(posts) + Copies(RequestFor(message), Process(message, script, finalSave, now).delta.attempts)
    {
      ghost var start := Observe();
      ghost var errs := Errors(script);
      var attempt := 0;
      var lastError: Option<string> := None;
      while attempt < MaxRetryAttempts
        invariant 0 <= attempt <= MaxRetryAttempts && attempt <= FirstReturn(errs)
        invariant attempt > 0 ==> lastError == errs[attempt - 1]
        invariant Observe() == Add(start, Failing(script, attempt))
        invariant posts == old(posts) + Copies(RequestFor(message), attempt)
      {
        ghost var cur := Observe();
        attempt := attempt + 1;
        var error := Attempt(message, script[attempt - 1], now);
        CopiesStep(old(posts), RequestFor(message), attempt - 1);
        if error.None? {
          ReturnedAttemptStep(start, cur, message, script, finalSave, now, attempt - 1);
          return None;
        }
        // the `catch`: remember the exception, wait one second
        lastError := error;
        delays := delays + 1;
        ThrownAttemptStep(start, cur, message, script, attempt - 1, now);
      }
      ghost var cur := Observe();
      thrown := GiveUp(message, lastError, finalSave, now);
      ExhaustedStep(start, cur, message, script, finalSave, now);
    }

    /**
     * One turn of the consume loop, inside its `try`: a `ConsumeException`
     * and any other exception are caught and logged, a null message is
     * logged as a warning, and a message is handed to `ProcessWithRetry`.
     */
    method ConsumeOne(d: Delivery<SmsScript>)
      modifies this, repository
      ensures Observe() == Add(old(Observe()), DeliveryEffect(d, Process))
      ensures posts == old(posts) + DeliveryPosts(d)
    {
      match d {
        case ConsumeFailed(_) =>
          kafkaErrors := kafkaErrors + 1;
        case Received(payload, script, finalSave, now) =>
          match payload {
            case NullPayload =>
              warnings := warnings + 1;
            case Malformed(_) =>
              errors := errors + 1;
            case Parsed(m) =>
              var thrown := ProcessWithRetry(m, script, finalSave, now);
              if thrown.Some? {
                errors := errors + 1;
              }
          }
      }
    }

    /**
     * `ExecuteAsync`: building or subscribing the consumer is not guarded,
     * so a failure there escapes the service before anything is processed.
     * Otherwise every delivery is handled in order and no exception ends the
     * loop; the stream ends where the loop head sees the cancellation.
     */
    method ExecuteAsync(startup: Option<string>, deliveries: seq<Delivery<SmsScript>>)
      returns (thrown: Option<string>)
      modifies this, repository
      ensures thrown == startup
      ensures startup.Some? ==> Observe() == old(Observe())
      ensures startup.None? ==> Observe() == Add(old(Observe()), RunEffect(deliveries, Process))
      ensures startup.Some? ==> posts == old(posts)
      ensures startup.None? ==> posts == old(posts) + StreamPosts(deliveries)
    {
      if startup.Some? {
        return startup;
      }
      var i := 0;
      while i < |deliveries|
        invariant 0 <= i <= |deliveries|
        invariant Observe() == Add(old(Observe()), RunEffect(deliveries[..i], Process))
        invariant posts == old(posts) + StreamPosts(deliveries[..i])
      {
        ghost var before := Observe();
        ConsumeOne(deliveries[i]);
        RunEffectStep(old(Observe()), before, deliveries, i, Process);
        StreamPostsStep(deliveries, i);
        i := i + 1;
      }
      assert deliveries[..i] == deliveries;
      thrown := None;
    }
  }

  /** Over any stream: at most one row and at most three POSTs per deserialized message. */
  lemma StreamBounds(deliveries: seq<Delivery<SmsScript>>)
    ensures |RunEffect(deliveries, Process).rows| <= ParsedCount(deliveries)
    ensures RunEffect(deliveries, Process).attempts <= MaxRetryAttempts * ParsedCount(deliveries)
    ensures |StreamPosts(deliveries)| <= MaxRetryAttempts * ParsedCount(deliveries)
  {
    RunEffectBounds(deliveries, Process);
  }
}

=== FILE: wrappers.dfy ===
/** Optional values: the C# `null` of a reference or of a nullable string. */
module Wrappers {

  datatype Option<+T> = None | Some(value: T)
}
